=== FILE: README.md ===
# switchbot-api2mqtt: the bridge's decision logic in Dafny

The bridge connects an MQTT bus to the SwitchBot cloud API for a smart lock.
Four pieces of `switchbot_api2mqtt.py` decide what it does, and this project
models each one as a pure function of an immutable configuration record:

- **topic parsing**: `get_id_from_topic`, and the prefix tests
  `is_smartlock_topic` / `is_generic_topic`;
- **`on_message`**: the router for bus messages. On a smart-lock topic it
  checks the device id in segment 3 against the device allow-list. It then
  checks the lower-cased payload against the command allow-list. A `status`
  command becomes a GET of `devices/{id}/status`; any other command becomes a
  POST to `devices/{id}/commands`. On the generic topic the JSON payload's
  `method` and `service` choose a GET or a POST. A reply is republished only
  when its status is 200;
- **`receive_webhook`**: a chain of checks on a vendor event. It ends in a
  400, a 500 (see below), or one publish of the event on
  `{base}{deviceMac}/event`;
- **the poller**: the polling interval is clamped up to 60 seconds, and the
  poller is off for values of 0 or less. One tick publishes a `status` command
  for every allow-listed device.

The vendor's answer is an input to the model. It is either
`Response(status, body)` or `TransportFailure`. The second one stands for the
`False` that `http_utils.py` returns when `requests` raises. The router's
`res is not None` test lets `False` through, and `res.status_code` then
raises. The handler swallows that exception, so nothing is published.
`Router.Republished` states this outcome.

JSON values are documents as sent, with members in order and repeated keys
kept. `JsonValue.Lookup` reads them the way Python's `dict.get` reads the dict
`json.loads` builds, where the last repeated key wins. `JsonValue.Decoded` is
that dict itself: one member per key, at the key's first position, holding its
last value. The model applies it wherever a decoded value leaves the handler:
in `str()`, in a generic POST body, and in every published document.

Every outcome is a value. `Effects.Outcome` lists the vendor calls made
(`Get(url)` / `Post(url, body)`) and the messages published
(`Publish(topic, body)`). `Webhook.WebhookReply` is the HTTP answer of the
webhook endpoint.

Modules:
- `Wrappers`: `Option`, for Python's `None`.
- `JsonValue`: decoded JSON, plus Python's `dict.get`, truthiness and `str()`.
- `Text`: `split('/')`, `'/'.join`, `lower()`.
- `Settings`: the configuration record and its defaults.
- `Effects`: calls, replies and publishes.
- `Topics`: the device-id segment and the reply topic.
- `Router` and `RouterProperties`: `on_message`.
- `Webhook`: `receive_webhook`.
- `Poller`: the interval and one tick.
- `Bridge`: the poller's messages coming back through `on_message`, and
  worked examples.

Behaviours of the code worth knowing:
- The smart-lock payload is lower-cased but not trimmed (line 120). See
  `RouterProperties.PayloadNotTrimmed`.
- The reply topic is the inbound topic minus its last four characters, plus
  `response` (line 132). No topic segment is replaced.
- The webhook answers 500, not 400, in two cases: when the body is a truthy
  JSON value that is not an object, or, after a `changeReport` eventType,
  when `context` is a truthy value that is not an object. Calling `.get` on such a value raises, and nothing in
  `receive_webhook` catches it.
- The device id is always segment 3, whatever the depth of the smart-lock
  base topic (line 117). `Bridge.OneLevelBaseDropsPolledStatus` shows that
  with a one-level base, the poller's own `status` messages are dropped.
- The smart-lock prefix test comes first. When the smart-lock base is a
  prefix of the generic base, generic commands take the smart-lock path. See
  `Bridge.OverlappingBasesShadowGeneric`.
- An allow-listed command with an ASCII capital can never be matched. An
  allow-listed device id that contains `/` cannot be matched by `on_message`,
  because segment 3 of a topic never contains `/`; the webhook still accepts
  it as a `deviceMac`. See `RouterProperties.ReachableCommand` and
  `RouterProperties.ReachableDeviceId`.

## Model

| member | source | states |
|---|---|---|
| JsonValue.Lookup | switchbot_api2mqtt.py:145-146 | `dict.get` on a decoded object returns the value of the last member with that key, and `None` (Null) when the key is missing |
| JsonValue.DictShape | switchbot_api2mqtt.py:144 | the dict `json.loads` builds from an object has distinct keys, exactly the object's keys, and only members taken from the object |
| JsonValue.LookupDict | switchbot_api2mqtt.py:145-146 | the dict `json.loads` builds answers every `get` exactly as the last-wins reading of the document's members does |
| JsonValue.LookupDecoded | switchbot_api2mqtt.py:145-146 | `get` on the decoded object is the decoded value of `get` on the document, so reading a key before or after `json.loads` agrees |
| JsonValue.DecodedIsDecoded | switchbot_api2mqtt.py:144 | the value `json.loads` returns has distinct keys in every object, at every depth |
| JsonValue.DecodedUnchanged | switchbot_api2mqtt.py:144 | a document that already has distinct keys everywhere decodes to itself |
| JsonValue.DecodedIdempotent | switchbot_api2mqtt.py:144 | decoding twice is decoding once |
| JsonValue.TruthyDecoded | switchbot_api2mqtt.py:150-152 | `if service` gives the same answer on the document and on the decoded value. An object is non-empty before `json.loads` exactly when it is non-empty after |
| JsonValue.RepeatedKeyShownOnce | switchbot_api2mqtt.py:151 | `str()` of `{"a": 1, "a": 2}` is `{'a': 2}`, as the f-string that builds the generic URL renders it |
| Settings.DefaultConfigAdmitsNothing | switchbot_api2mqtt.py:38-40 | with the allow-list settings unset, no device id and no command passes `is_valid_deviceid` / `is_smartlockpro_validcommand`. `is_smartlockpro_webhook` accepts exactly the JSON string `WoLockPro` |
| Text.Split | switchbot_api2mqtt.py:183 | `topic.split('/')` gives at least one segment, and no segment contains `/` |
| Text.SegmentCount | switchbot_api2mqtt.py:183-184 | the number of segments is one more than the number of `/` in the topic |
| Text.JoinSplit | switchbot_api2mqtt.py:183 | joining the segments with `/` gives back the topic |
| Text.SplitJoin | switchbot_api2mqtt.py:183 | splitting a `/`-join of `/`-free segments gives back those segments |
| Text.Lower | switchbot_api2mqtt.py:120 | the lower-cased payload has the same length, maps each character by itself, and has no capital letters left |
| Text.LowerIdempotent | switchbot_api2mqtt.py:120 | lower-casing an already lower-cased command changes nothing |
| Topics.GetIdFromTopic | switchbot_api2mqtt.py:182-187 | a segment is returned exactly when the topic has at least `idx` segments (at least `idx - 1` separators), and it contains no `/` |
| Topics.IdOfJoinedTopic | switchbot_api2mqtt.py:182-187 | for a topic built from segments, `get_id_from_topic(topic, idx)` is the idx-th segment when there are at least idx segments, and `None` otherwise |
| Topics.ResponseTopic | switchbot_api2mqtt.py:132 | the reply topic keeps all of the inbound topic except its last four characters, and ends in `response` |
| Topics.ResponseTopicOfCommandTopic | switchbot_api2mqtt.py:132 | the reply topic of `X/cmnd` is `X/response` |
| Router.Classify | switchbot_api2mqtt.py:167-171 | a topic is a smart-lock topic iff it starts with the smart-lock base. It is generic iff it does not, and it starts with the generic base. Otherwise it is neither |
| Router.Republished | switchbot_api2mqtt.py:129-136 | a reply yields a document to publish iff it is an HTTP response with status 200 and a JSON body. The document is the value `res.json()` built. A non-200 status, a transport failure (`False`) or a non-JSON body yields nothing |
| Router.OnMessage | switchbot_api2mqtt.py:112-165 | at most one vendor call. At most one publish, and only after a call answered 200 with a JSON body, carrying that body as `res.json()` decoded it. On a smart-lock topic a call needs an allow-listed segment 3 and an allow-listed lower-cased payload, and the reply goes to the derived reply topic. On a generic topic the reply goes to `GENERIC_BASE + "response"`. Any other topic does nothing |
| RouterProperties.SmartlockStatusIsOneGet | switchbot_api2mqtt.py:125-132 | a valid `status` command is exactly one GET of `API_BASEURL + "devices/{id}/status"`, and a 200 JSON reply is published once on the reply topic |
| RouterProperties.SmartlockCommandIsOnePost | switchbot_api2mqtt.py:127-132 | any other valid command is exactly one POST to `API_BASEURL + "devices/{id}/commands"` with body `{"command": cmd, "commandType": "command"}` |
| RouterProperties.DeviceCheckedFirst | switchbot_api2mqtt.py:117-120 | with a missing or unknown device id, nothing happens whatever the payload, and the payload makes no difference |
| RouterProperties.UnknownCommandIsDropped | switchbot_api2mqtt.py:120-122 | a payload that is not UTF-8, or whose lower-cased text is not an allow-listed command, makes no call |
| RouterProperties.CommandCaseInsensitive | switchbot_api2mqtt.py:120 | two payloads with the same lower-cased text are handled identically |
| RouterProperties.PayloadNotTrimmed | switchbot_api2mqtt.py:120 | `"status "` (with a trailing space) is dropped unless the allow-list has a command ending in a space |
| RouterProperties.GenericGetIsOneGet | switchbot_api2mqtt.py:150-151 | `method == "get"` with a truthy `service` is exactly one GET of `API_BASEURL + str(service)`, and a 200 JSON reply goes to the generic response topic |
| RouterProperties.GenericPostIsOnePost | switchbot_api2mqtt.py:152-153 | `method == "post"` with a truthy `service` is exactly one POST. Its body is the decoded `payload` field |
| RouterProperties.ReachableCommand | switchbot_api2mqtt.py:120-121 | no payload lower-cases to a command that contains an ASCII capital, so `is_smartlockpro_validcommand` never matches such a command. Under the ASCII-only `Text.Lower`, every other command is the lower-casing of some payload (itself) |
| RouterProperties.ReachableDeviceId | switchbot_api2mqtt.py:117-119 | some topic has a given id as segment 3 iff the id has no `/`, so `is_valid_deviceid` can only ever match such ids on the smart-lock path |
| RouterProperties.GenericOtherShapeIsDropped | switchbot_api2mqtt.py:143-155 | any other generic payload makes no call and no publish. This covers non-UTF-8 text, non-JSON text, JSON that is not an object, a falsy `service`, and any other `method` |
| Webhook.ReceiveWebhook | switchbot_api2mqtt.py:53-86 | 200 iff the event is an object with `eventType == "changeReport"`, a non-empty object `context`, the configured `deviceType`, and a non-empty allow-listed `deviceMac`. Then it makes exactly one publish, of the decoded event, on `SMARTLOCK_BASE + deviceMac + "/event"`. A falsy body or a wrong event type gives 400 "Invalid payload". A 500 comes exactly from a truthy non-object body, or, after a `changeReport` eventType, a truthy non-object context. Once the type check passes, a falsy `deviceMac` gives 400 "Invalid payload", and a truthy one that is not an allow-listed string gives 400 "Invalid deviceid {str(mac)}" |
| Webhook.OtherDeviceTypeRejected | switchbot_api2mqtt.py:64-79 | a change report whose `deviceType` is not exactly the configured string is refused with "Invalid payload" whatever the rest of the context says, because `is_smartlockpro_webhook` is plain equality |
| Poller.NormaliseInterval | switchbot_api2mqtt.py:46-48 | a value strictly between 0 and 60 becomes 60; values of 60 or more and values of 0 or less are unchanged |
| Poller.StartedPollerRespectsMinimum | switchbot_api2mqtt.py:243-246 | the poller starts iff the configured value parses and is positive (an unparsable setting reads as 0 and switches it off), and a started poller's interval is at least 60 |
| Poller.NormaliseIntervalIdempotent | switchbot_api2mqtt.py:46-48 | normalising twice is normalising once |
| Poller.StatusCommands | switchbot_api2mqtt.py:209-212 | one `status` message per device, in order, on `SMARTLOCK_BASE + id + "/cmnd"` |
| Poller.PollTick | switchbot_api2mqtt.py:204-215 | a tick makes no vendor call. It publishes exactly one `"status"` per allow-listed device, on `SMARTLOCK_BASE + id + "/cmnd"`, in allow-list order |
| Bridge.PolledMessageIsStatus | switchbot_api2mqtt.py:210-212 | a tick's message, delivered back, is the payload `status` on the device's command topic |
| Bridge.TwoLevelCommandTopic | switchbot_api2mqtt.py:117 | under a two-level base `a/b/`, a device's command topic has that device as segment 3, and its reply topic is `a/b/{id}/response` |
| Bridge.PolledStatusIsQueried | switchbot_api2mqtt.py:209-212 | under a two-level base with `status` allowed, each message of a tick, delivered back through `on_message`, is exactly one GET of that device's status. A 200 reply is published on the device's `response` topic |
| Bridge.OneLevelBaseDropsPolledStatus | switchbot_api2mqtt.py:117 | under any one-level base `a/` (with `a` free of `/`), segment 3 of a polled command topic is `cmnd`, so the poller's messages are dropped |
| Bridge.ExampleRouted | switchbot_api2mqtt.py:117-132 | with the defaults and `ABC123`/`status` allowed, `status` on `smarthome/smartlock/ABC123/cmnd` is one GET, and for any reply the publishes are those of the reply rule |
| Bridge.StatusExample | switchbot_api2mqtt.py:117-132 | the worked example: one GET of `https://api.switch-bot.com/v1.1/devices/ABC123/status`, and the 200 body `{"lockState": "locked"}` is published on `smarthome/smartlock/ABC123/response` |
| Bridge.CommandTopicsClassify | switchbot_api2mqtt.py:107-115 | every device command topic `base + id + "/cmnd"` is a smart-lock topic. The generic command topic `GENERIC_BASE + "cmnd"` is generic iff it does not also start with the smart-lock base |
| Bridge.OverlappingBasesShadowGeneric | switchbot_api2mqtt.py:115 | with bases `smarthome/` and `smarthome/generic/`, `smarthome/generic/cmnd` takes the smart-lock path |
| Bridge.ChangeReportDecoded | switchbot_api2mqtt.py:85 | a change report with distinct keys is published exactly as it arrived |
| Bridge.ChangeReportAccepted | switchbot_api2mqtt.py:57-86 | a change report for the configured type and an allow-listed non-empty MAC is one publish of the report on `{base}{mac}/event` |
| Bridge.ChangeReportRefused | switchbot_api2mqtt.py:73-75 | the same report with a MAC outside the allow-list is a 400 "Invalid deviceid {mac}" |

## Left out

- `generate_headers` (lines 88-100) is not modelled. It uses HMAC-SHA256, base64, the wall clock and `uuid4`. A `Request` carries no headers. The model assumes the token and secret are set. With either one missing, the code raises while building the call's arguments, so no call is made and the handler swallows the exception.
- Settings.Config: the allow-lists are lists of strings. A JSON setting that lists numbers or other values is not modelled.
- `http_utils.py` is not modelled beyond its observable result. The `requests` call becomes the `Effects.Reply` input.
- The MQTT client, `on_connect` and its subscriptions, the Flask server, the threads, `time.sleep`, the poller's endless loop, logging and `print_initial_info` are not modelled. They are I/O and scheduling.
- Reading the environment and decoding JSON are not modelled. Payloads arrive as `Router.Payload`: UTF-8 text, plus what `json.loads` made of it. The webhook body arrives as an already decoded `JsonValue.Json`. A `get_json()` failure inside Flask is not modelled.
- Exceptions raised by `mqtt_client.publish` are not modelled. This covers the poller and the webhook, including a webhook that arrives before the client exists.
- Text.Lower: maps only ASCII capitals, because Python's `str.lower` Unicode case mapping is not modelled.
- RouterProperties.ReachableCommand: the converse direction (a command without an ASCII capital is reachable) holds only for the ASCII-only `Text.Lower`. Python's `str.lower` also makes unreachable every command holding another cased capital, such as `É` or `Σ`.
- JsonValue.Repr: `str()` of an array- or object-valued `service` quotes strings with `'` and does not escape them. Python's quote choice and escaping rules are not modelled.
- JsonValue.Json: numbers are integers only. JSON floats are not modelled.
- Topics.GetIdFromTopic: the index is a natural number. Negative Python indices are not modelled, and the only caller passes 3.

=== FILE: bridge.dfy ===
/** How the pieces fit together: the poller's messages come back through
    `on_message`, and worked examples with the default configuration. */
module Bridge {
  import opened Wrappers
  import opened JsonValue
  import opened Text
  import opened Settings
  import opened Effects
  import opened Topics
  import opened Router
  import opened RouterProperties
  import opened Webhook
  import opened Poller

  /** The message the bus delivers back to the bridge for a publish of the
      poller's: its raw text, whatever `json.loads` makes of it. */
  function Redelivered(p: Publish, parsed: Option<Json>): Message
    requires p.body.Raw?
  {
    Message(p.topic, Utf8(p.body.text, parsed))
  }

  /** Under a two-level base `a/b/`, the command topic of a separator-free
      device id is the join of `a`, `b`, the id and `cmnd`. */
  lemma TwoLevelCommandTopicSegments(cfg: Config, a: string, b: string, id: string)
    requires cfg.smartlockBase == a + "/" + b + "/"
    ensures CommandTopic(cfg, id) == Join([a, b, id, "cmnd"])
  {
    JoinCons(id, ["cmnd"]);
    assert [b] + [id, "cmnd"] == [b, id, "cmnd"];
    JoinCons(b, [id, "cmnd"]);
    assert [a] + [b, id, "cmnd"] == [a, b, id, "cmnd"];
    JoinCons(a, [b, id, "cmnd"]);
  }

  /** Under a two-level base `a/b/`, the command topic of a separator-free
      device id carries that id as its third segment, and its reply topic is
      the device's `response` topic. */
  lemma TwoLevelCommandTopic(cfg: Config, a: string, b: string, id: string)
    requires cfg.smartlockBase == a + "/" + b + "/"
    requires Separator !in a && Separator !in b && Separator !in id
    ensures TopicDeviceId(CommandTopic(cfg, id)) == Some(id)
    ensures ResponseTopic(CommandTopic(cfg, id)) == cfg.smartlockBase + id + "/response"
  {
    TwoLevelCommandTopicSegments(cfg, a, b, id);
    IdOfJoinedTopic([a, b, id, "cmnd"], DeviceIdSegment);
    ResponseTopicOfCommandTopic(cfg.smartlockBase + id);
  }

  /** When the smart-lock base has two levels (`a/b/`, as the default
      `smarthome/smartlock/` has) and `status` is an allow-listed command, every
      message of a poll tick, once delivered back, becomes exactly one GET of
      that device's status, and a 200 JSON reply is published on the device's
      `response` topic. */
  lemma {:induction false} PolledStatusIsQueried(cfg: Config, a: string, b: string, i: nat,
                                                 parsed: Option<Json>, reply: Reply)
    requires cfg.smartlockBase == a + "/" + b + "/"
    requires Separator !in a && Separator !in b
    requires i < |cfg.validDeviceIds| && Separator !in cfg.validDeviceIds[i]
    requires IsValidCommand(cfg, StatusCommand)
    ensures PollTick(cfg).published[i].body.Raw?
    ensures var id := cfg.validDeviceIds[i];
            var o := OnMessage(cfg, Redelivered(PollTick(cfg).published[i], parsed), reply);
            && o.calls == [Get(StatusUrl(cfg, id))]
            && o.published == ReplyPublishes(cfg.smartlockBase + id + "/response", reply)
  {
    var id := cfg.validDeviceIds[i];
    TwoLevelCommandTopic(cfg, a, b, id);
    PolledMessageIsStatus(cfg, i, parsed);
    assert Lower("status") == StatusCommand;
    SmartlockStatusIsOneGet(cfg, CommandTopic(cfg, id), "status", parsed, reply);
  }

  /** The device id is always the third topic segment, whatever the depth of
      the smart-lock base: with any one-level base `a/`, a polled `status`
      message reads `cmnd` as its device id and is dropped. */
  lemma {:induction false} OneLevelBaseDropsPolledStatus(cfg: Config, a: string, i: nat,
                                                         parsed: Option<Json>, reply: Reply)
    requires cfg.smartlockBase == a + "/" && Separator !in a
    requires i < |cfg.validDeviceIds| && Separator !in cfg.validDeviceIds[i]
    requires !IsValidDeviceId(cfg, "cmnd")
    ensures PollTick(cfg).published[i].body.Raw?
    ensures OnMessage(cfg, Redelivered(PollTick(cfg).published[i], parsed), reply) == NoEffect
  {
    var id := cfg.validDeviceIds[i];
    var topic := CommandTopic(cfg, id);
    var segs := [a, id, "cmnd"];
    assert Join(segs) == topic by {
      JoinCons(id, ["cmnd"]);
      JoinCons(a, [id, "cmnd"]);
    }
    IdOfJoinedTopic(segs, DeviceIdSegment);
    DeviceCheckedFirst(cfg, topic, Utf8("status", parsed), Utf8("status", parsed), reply);
  }

  /** A poll message, delivered back, is a `status` on the device's command
      topic. */
  lemma PolledMessageIsStatus(cfg: Config, i: nat, parsed: Option<Json>)
    requires i < |cfg.validDeviceIds|
    ensures PollTick(cfg).published[i].body.Raw?
    ensures Redelivered(PollTick(cfg).published[i], parsed)
            == Message(CommandTopic(cfg, cfg.validDeviceIds[i]), Utf8("status", parsed))
  {
  }

  /** The topics and URL of the worked example below, spelled out. */
  lemma ExampleStrings(cfg: Config)
    requires cfg == DefaultConfig.(validDeviceIds := ["ABC123"], validCommands := ["status"])
    ensures CommandTopic(cfg, "ABC123") == "smarthome/smartlock/ABC123/cmnd"
    ensures StatusUrl(cfg, "ABC123") == "https://api.switch-bot.com/v1.1/devices/ABC123/status"
    ensures cfg.smartlockBase + "ABC123" + "/response" == "smarthome/smartlock/ABC123/response"
  {
  }

  /** The worked example's message, for any reply. */
  lemma ExampleRouted(cfg: Config, topic: string, parsed: Option<Json>, reply: Reply)
    requires cfg == DefaultConfig.(validDeviceIds := ["ABC123"], validCommands := ["status"])
    requires topic == "smarthome/smartlock/ABC123/cmnd"
    ensures OnMessage(cfg, Message(topic, Utf8("status", parsed)), reply)
            == Outcome([Get(StatusUrl(cfg, "ABC123"))],
                       ReplyPublishes(cfg.smartlockBase + "ABC123" + "/response", reply))
  {
    PolledStatusIsQueried(cfg, "smarthome", "smartlock", 0, parsed, reply);
    PolledMessageIsStatus(cfg, 0, parsed);
    ExampleStrings(cfg);
  }

  /** A worked example: with the default configuration,
      device `ABC123` and command `status` allowed, a `status` on
      `smarthome/smartlock/ABC123/cmnd` is one GET of `devices/ABC123/status`,
      and the 200 answer `{"lockState": "locked"}` is published on
      `smarthome/smartlock/ABC123/response`. */
  lemma {:induction false} StatusExample(cfg: Config, topic: string, body: Json, parsed: Option<Json>)
    requires cfg == DefaultConfig.(validDeviceIds := ["ABC123"], validCommands := ["status"])
    requires topic == "smarthome/smartlock/ABC123/cmnd"
    requires body == Obj([Member("lockState", Str("locked"))])
    ensures OnMessage(cfg, Message(topic, Utf8("status", parsed)), Response(200, Some(body)))
            == Outcome([Get("https://api.switch-bot.com/v1.1/devices/ABC123/status")],
                       [Publish("smarthome/smartlock/ABC123/response", JsonDoc(body))])
  {
    ExampleRouted(cfg, topic, parsed, Response(200, Some(body)));
    ExampleStrings(cfg);
    OneMemberDecoded("lockState", "locked");
    assert ReplyPublishes(cfg.smartlockBase + "ABC123" + "/response", Response(200, Some(body)))
           == [Publish("smarthome/smartlock/ABC123/response", JsonDoc(body))];
  }

  /** An object with one member whose value is a string is already what
      `json.loads` returns. */
  lemma OneMemberDecoded(key: string, value: string)
    ensures Decoded(Obj([Member(key, Str(value))])) == Obj([Member(key, Str(value))])
  {
    var j := Obj([Member(key, Str(value))]);
    assert IsDecoded(j);
    DecodedUnchanged(j);
  }

  /** A change report as the vendor sends it: `eventType` first, then a
      `context` naming the device type and the device MAC. */
  function ChangeReportEvent(deviceType: string, mac: string): Json
  {
    Obj([Member("eventType", Str(ChangeReport)),
         Member("context", Obj([Member("deviceType", Str(deviceType)), Member("deviceMac", Str(mac))]))])
  }

  /** What `get` reads from a change report. */
  lemma ChangeReportReads(deviceType: string, mac: string)
    ensures var event := ChangeReportEvent(deviceType, mac);
            && Lookup(event.members, "eventType") == Str(ChangeReport)
            && Lookup(event.members, "context")
               == Obj([Member("deviceType", Str(deviceType)), Member("deviceMac", Str(mac))])
            && Lookup(Lookup(event.members, "context").members, "deviceType") == Str(deviceType)
            && Lookup(Lookup(event.members, "context").members, "deviceMac") == Str(mac)
  {
    var event := ChangeReportEvent(deviceType, mac);
    var context := [Member("deviceType", Str(deviceType)), Member("deviceMac", Str(mac))];
    assert event.members[..1] == [Member("eventType", Str(ChangeReport))];
    assert context[..1] == [Member("deviceType", Str(deviceType))];
  }

  /** A change report already has the shape `json.loads` returns, so it is
      published exactly as it arrived. */
  lemma ChangeReportDecoded(deviceType: string, mac: string)
    ensures Decoded(ChangeReportEvent(deviceType, mac)) == ChangeReportEvent(deviceType, mac)
  {
    var event := ChangeReportEvent(deviceType, mac);
    assert IsDecoded(event.members[1].value);
    assert IsDecoded(event);
    DecodedUnchanged(event);
  }

  /** A change report for the configured type and an allow-listed MAC is
      forwarded. */
  lemma ChangeReportAccepted(cfg: Config, mac: string)
    requires mac != "" && IsValidDeviceId(cfg, mac)
    ensures ReceiveWebhook(cfg, ChangeReportEvent(cfg.smartlockDeviceType, mac))
            == Accepted(Publish(cfg.smartlockBase + mac + "/event",
                                JsonDoc(ChangeReportEvent(cfg.smartlockDeviceType, mac))))
  {
    var event := ChangeReportEvent(cfg.smartlockDeviceType, mac);
    ChangeReportReads(cfg.smartlockDeviceType, mac);
    ChangeReportDecoded(cfg.smartlockDeviceType, mac);
    assert IsForwardedEvent(cfg, event);
    assert EventDeviceId(cfg, event) == mac;
  }

  /** A change report for the configured type and a MAC outside the
      allow-list is refused, naming the MAC. */
  lemma ChangeReportRefused(cfg: Config, mac: string)
    requires mac != "" && !IsValidDeviceId(cfg, mac)
    ensures ReceiveWebhook(cfg, ChangeReportEvent(cfg.smartlockDeviceType, mac))
            == Rejected("Invalid deviceid " + mac)
  {
    ChangeReportReads(cfg.smartlockDeviceType, mac);
  }

  /** The topics the bridge subscribes to reach the path meant for them,
      with one exception: every device command topic is a smart-lock topic,
      but the generic command topic is generic only when it does not also
      start with the smart-lock base, which is tested first. */
  lemma CommandTopicsClassify(cfg: Config, id: string)
    ensures Classify(cfg, CommandTopic(cfg, id)) == SmartlockTopic
    ensures Classify(cfg, cfg.genericBase + "cmnd") == GenericTopic <==>
              !(cfg.smartlockBase <= cfg.genericBase + "cmnd")
  {
    assert CommandTopic(cfg, id) == cfg.smartlockBase + (id + "/cmnd");
    assert cfg.genericBase <= cfg.genericBase + "cmnd";
  }

  /** With a smart-lock base that is a prefix of the generic base, generic
      commands take the smart-lock path. */
  lemma OverlappingBasesShadowGeneric(cfg: Config)
    requires cfg.smartlockBase == "smarthome/" && cfg.genericBase == "smarthome/generic/"
    ensures Classify(cfg, cfg.genericBase + "cmnd") == SmartlockTopic
  {
    CommandTopicsClassify(cfg, "");
    assert cfg.genericBase + "cmnd" == cfg.smartlockBase + "generic/cmnd";
  }
}

=== FILE: effects.dfy ===
/** What the bridge's decisions amount to: calls to the vendor API, the
    vendor's answer, and messages published on the bus. */
module Effects {
  import opened Wrappers
  import opened JsonValue

  /** One vendor API call: `http_get(url, headers)` or
      `http_post(url, body, headers)`. The signed headers are not modelled. */
  datatype Request = Get(url: string) | Post(url: string, body: Json)

  /** What a vendor call gives back. `Response` is any HTTP answer, whatever
      its status; `body` is `res.json()`, or `None` when the body is not JSON
      and `res.json()` raises. `TransportFailure` stands for the `False` that
      http_utils returns when `requests` raises. */
  datatype Reply = Response(status: int, body: Option<Json>) | TransportFailure

  /** A message payload: raw text, or `json.dumps` of a decoded value. */
  datatype PublishBody = Raw(text: string) | JsonDoc(doc: Json)

  datatype Publish = Publish(topic: string, body: PublishBody)

  /** Everything one handler invocation does, in order. */
  datatype Outcome = Outcome(calls: seq<Request>, published: seq<Publish>)

  const NoEffect: Outcome := Outcome([], [])

  const HttpOk: int := 200
}

=== FILE: json_value.dfy ===
/** Decoded JSON documents as the bridge sees them once Python's `json`
    module has parsed a payload, and the three Python operations the bridge
    applies to them: `dict.get`, truthiness (`if not x`) and `str()` (inside
    f-strings). Parsing and serialisation themselves are not modelled. */
module JsonValue {
  import opened Wrappers

  /** A JSON value. Numbers are integers. */
  datatype Json =
    | Null
    | Bool(b: bool)
    | Num(n: int)
    | Str(s: string)
    | Arr(items: seq<Json>)
    | Obj(members: seq<Member>)

  /** One `"key": value` pair of an object, in document order. */
  datatype Member = Member(key: string, value: Json)

  predicate HasKey(members: seq<Member>, key: string)
  {
    exists i :: 0 <= i < |members| && members[i].key == key
  }

  /** `dict.get(key)` on a decoded object: `json.loads` keeps the LAST of
      several members with the same key, and a missing key reads as `None`. */
  function Lookup(members: seq<Member>, key: string): (v: Json)
    ensures !HasKey(members, key) ==> v == Null
    ensures HasKey(members, key) ==>
              exists i :: 0 <= i < |members| && members[i].key == key && members[i].value == v &&
                          forall j :: i < j < |members| ==> members[j].key != key
  {
    if |members| == 0 then Null
    else if members[|members| - 1].key == key then members[|members| - 1].value
    else Lookup(members[..|members| - 1], key)
  }

  /** Python truthiness of a decoded value (`bool(x)`). */
  predicate Truthy(j: Json)
  {
    match j
    case Null => false
    case Bool(b) => b
    case Num(n) => n != 0
    case Str(s) => |s| > 0
    case Arr(items) => |items| > 0
    case Obj(members) => |members| > 0
  }

  /** Python `str(x)`, as an f-string renders a decoded value: a string is
      itself, anything else is the `repr` of the value `json.loads` built. */
  function PyStr(j: Json): string
  {
    if j.Str? then j.s else Repr(Decoded(j))
  }

  /** Python `repr(x)` of a decoded value. Strings are quoted with `'` and not
      escaped. */
  function Repr(j: Json): string
    decreases j
  {
    match j
    case Null => "None"
    case Bool(b) => if b then "True" else "False"
    case Num(n) => Decimal(n)
    case Str(s) => "'" + s + "'"
    case Arr(items) =>
      "[" + CommaJoined(seq(|items|, i requires 0 <= i < |items| => Repr(items[i]))) + "]"
    case Obj(members) =>
      "{" + CommaJoined(seq(|members|, i requires 0 <= i < |members| =>
                              "'" + members[i].key + "': " + Repr(members[i].value))) + "}"
  }

  function CommaJoined(parts: seq<string>): string
  {
    if |parts| == 0 then ""
    else if |parts| == 1 then parts[0]
    else parts[0] + ", " + CommaJoined(parts[1..])
  }

  function Decimal(n: int): string
  {
    if n < 0 then "-" + Digits(-n) else Digits(n)
  }

  function Digits(n: nat): string
    decreases n
  {
    if n < 10 then ["0123456789"[n]] else Digits(n / 10) + ["0123456789"[n % 10]]
  }

  /** No two members share a key, as in a Python dict. */
  predicate DistinctKeys(members: seq<Member>)
  {
    forall i, j :: 0 <= i < j < |members| ==> members[i].key != members[j].key
  }

  /** Every object, at every depth, has distinct keys: the shape of a value
      `json.loads` returns. */
  predicate IsDecoded(j: Json)
    decreases j
  {
    match j
    case Arr(items) => forall i :: 0 <= i < |items| ==> IsDecoded(items[i])
    case Obj(members) =>
      DistinctKeys(members) && forall i :: 0 <= i < |members| ==> IsDecoded(members[i].value)
    case _ => true
  }

  /** `d[key] = value` on a dict that already holds `key`: the member keeps
      its place and takes the new value. */
  function Assign(d: seq<Member>, key: string, value: Json): (r: seq<Member>)
    ensures |r| == |d|
    ensures forall i :: 0 <= i < |d| ==> r[i].key == d[i].key
  {
    seq(|d|, i requires 0 <= i < |d| => if d[i].key == key then Member(key, value) else d[i])
  }

  /** The dict `json.loads` builds from an object's members, in order: a
      repeated key keeps the position of its first occurrence and takes the
      value of its last. */
  function Dict(members: seq<Member>): seq<Member>
    decreases |members|
  {
    if |members| == 0 then []
    else
      var init := members[..|members| - 1];
      var last := members[|members| - 1];
      if HasKey(init, last.key) then Assign(Dict(init), last.key, last.value)
      else Dict(init) + [last]
  }

  /** The dict has distinct keys, the same keys as the members, and only
      members that occur in the object. */
  lemma {:induction false} DictShape(members: seq<Member>)
    ensures DistinctKeys(Dict(members))
    ensures forall k :: HasKey(Dict(members), k) <==> HasKey(members, k)
    ensures forall i :: 0 <= i < |Dict(members)| ==> Dict(members)[i] in members
    decreases |members|
  {
    if |members| > 0 {
      var init := members[..|members| - 1];
      var last := members[|members| - 1];
      var d0 := Dict(init);
      DictShape(init);
      assert forall k :: HasKey(members, k) <==> HasKey(init, k) || k == last.key by {
        forall k | HasKey(members, k) && k != last.key ensures HasKey(init, k) {
          var i :| 0 <= i < |members| && members[i].key == k;
          assert init[i] == members[i];
        }
        forall k | HasKey(init, k) ensures HasKey(members, k) {
          var i :| 0 <= i < |init| && init[i].key == k;
          assert members[i] == init[i];
        }
      }
      if HasKey(init, last.key) {
        var r := Assign(d0, last.key, last.value);
        assert forall k :: HasKey(r, k) <==> HasKey(d0, k) by {
          forall k | HasKey(r, k) ensures HasKey(d0, k) {
            var i :| 0 <= i < |r| && r[i].key == k;
            assert d0[i].key == k;
          }
          forall k | HasKey(d0, k) ensures HasKey(r, k) {
            var i :| 0 <= i < |d0| && d0[i].key == k;
            assert r[i].key == k;
          }
        }
        forall i | 0 <= i < |r| ensures r[i] in members {
          if d0[i].key == last.key {
            assert r[i] == last;
          } else {
            assert d0[i] in init;
          }
        }
      } else {
        var r := d0 + [last];
        assert forall k :: HasKey(r, k) <==> HasKey(d0, k) || k == last.key by {
          forall k | HasKey(r, k) && k != last.key ensures HasKey(d0, k) {
            var i :| 0 <= i < |r| && r[i].key == k;
            assert d0[i] == r[i];
          }
          forall k | HasKey(d0, k) ensures HasKey(r, k) {
            var i :| 0 <= i < |d0| && d0[i].key == k;
            assert r[i] == d0[i];
          }
          assert r[|d0|] == last;
        }
        forall i | 0 <= i < |r| ensures r[i] in members {
          if i < |d0| { assert d0[i] in init; }
        }
      }
    }
  }

  /** The value `json.loads` returns for a JSON document: every object,
      at every depth, becomes its `Dict`. */
  function Decoded(j: Json): (d: Json)
    decreases j
  {
    match j
    case Arr(items) => Arr(seq(|items|, i requires 0 <= i < |items| => Decoded(items[i])))
    case Obj(members) => Obj(Dict(DecodedMembers(members)))
    case _ => j
  }

  /** The members of an object with every value decoded, keys untouched. */
  function DecodedMembers(members: seq<Member>): seq<Member>
    decreases members
  {
    seq(|members|, i requires 0 <= i < |members| => Member(members[i].key, Decoded(members[i].value)))
  }

  /** A member appended at the end is what `get` finds for its key. */
  lemma LookupAppend(d: seq<Member>, last: Member, k: string)
    ensures Lookup(d + [last], k) == if k == last.key then last.value else Lookup(d, k)
  {
    assert (d + [last])[..|d|] == d;
  }

  /** In a dict, `get` of a member's key is that member's value. */
  lemma LookupDistinct(d: seq<Member>, i: nat)
    requires DistinctKeys(d) && i < |d|
    ensures Lookup(d, d[i].key) == d[i].value
  {
  }

  /** `d[key] = value` changes what `get` returns for `key` and nothing
      else. */
  lemma LookupAssign(d: seq<Member>, key: string, value: Json, k: string)
    requires DistinctKeys(d) && HasKey(d, key)
    ensures Lookup(Assign(d, key, value), k) == if k == key then value else Lookup(d, k)
  {
    var r := Assign(d, key, value);
    assert DistinctKeys(r);
    if HasKey(d, k) {
      var i :| 0 <= i < |d| && d[i].key == k;
      LookupDistinct(d, i);
      LookupDistinct(r, i);
    } else {
      assert !HasKey(r, k) by {
        forall i | 0 <= i < |r| ensures r[i].key != k {
          assert r[i].key == d[i].key;
        }
      }
    }
  }

  /** The dict `json.loads` builds answers every `get` exactly as the
      last-wins reading of the members does. */
  lemma {:induction false} LookupDict(members: seq<Member>, k: string)
    ensures Lookup(Dict(members), k) == Lookup(members, k)
    decreases |members|
  {
    if |members| > 0 {
      var init := members[..|members| - 1];
      var last := members[|members| - 1];
      LookupDict(init, k);
      DictShape(init);
      if HasKey(init, last.key) {
        LookupAssign(Dict(init), last.key, last.value, k);
      } else {
        LookupAppend(Dict(init), last, k);
      }
    }
  }

  /** Decoding the values of an object commutes with `get`. */
  lemma {:induction false} LookupDecodedMembers(members: seq<Member>, k: string)
    ensures Lookup(DecodedMembers(members), k) == Decoded(Lookup(members, k))
    decreases |members|
  {
    if |members| > 0 {
      var n := |members| - 1;
      var r := DecodedMembers(members);
      assert DecodedMembers(members[..n]) == r[..n];
      LookupDecodedMembers(members[..n], k);
    }
  }

  /** `get` on the decoded object is the decoded value of `get` on its
      members: reading a key before or after `json.loads` agrees. */
  lemma LookupDecoded(members: seq<Member>, k: string)
    ensures Lookup(Decoded(Obj(members)).members, k) == Decoded(Lookup(members, k))
  {
    LookupDict(DecodedMembers(members), k);
    LookupDecodedMembers(members, k);
  }

  /** Members whose keys are already distinct are their own dict. */
  lemma {:induction false} DictOfDistinct(members: seq<Member>)
    requires DistinctKeys(members)
    ensures Dict(members) == members
    decreases |members|
  {
    if |members| > 0 {
      var init := members[..|members| - 1];
      var last := members[|members| - 1];
      DictOfDistinct(init);
      assert !HasKey(init, last.key);
      assert init + [last] == members;
    }
  }

  /** What `json.loads` returns has distinct keys at every depth. */
  lemma {:induction false} DecodedIsDecoded(j: Json)
    ensures IsDecoded(Decoded(j))
    decreases j
  {
    match j
    case Arr(items) =>
      forall i | 0 <= i < |items| ensures IsDecoded(Decoded(j).items[i]) {
        DecodedIsDecoded(items[i]);
      }
    case Obj(members) =>
      var dm := DecodedMembers(members);
      var d := Dict(dm);
      DictShape(dm);
      forall i | 0 <= i < |d| ensures IsDecoded(d[i].value) {
        var m :| m in dm && m == d[i];
        var x :| 0 <= x < |dm| && dm[x] == m;
        DecodedIsDecoded(members[x].value);
      }
    case _ =>
  }

  /** A value that already has the shape `json.loads` returns is left as it
      is. */
  lemma {:induction false} DecodedUnchanged(j: Json)
    requires IsDecoded(j)
    ensures Decoded(j) == j
    decreases j
  {
    match j
    case Arr(items) =>
      forall i | 0 <= i < |items| ensures Decoded(items[i]) == items[i] {
        DecodedUnchanged(items[i]);
      }
    case Obj(members) =>
      var dm := DecodedMembers(members);
      forall i | 0 <= i < |members| ensures dm[i] == members[i] {
        DecodedUnchanged(members[i].value);
      }
      assert dm == members;
      DictOfDistinct(members);
    case _ =>
  }

  /** Decoding twice is decoding once. */
  lemma DecodedIdempotent(j: Json)
    ensures Decoded(Decoded(j)) == Decoded(j)
  {
    DecodedIsDecoded(j);
    DecodedUnchanged(Decoded(j));
  }

  /** Decoding keeps truthiness: an object is non-empty before `json.loads`
      exactly when it is non-empty after. */
  lemma TruthyDecoded(j: Json)
    ensures Truthy(Decoded(j)) == Truthy(j)
  {
    if j.Obj? && |j.members| > 0 {
      var dm := DecodedMembers(j.members);
      DictShape(dm);
      assert HasKey(dm, dm[0].key);
    }
  }

  /** `str()` of an object with a repeated key shows the key once, with its
      last value: `{"a": 1, "a": 2}` prints as `{'a': 2}`. */
  lemma RepeatedKeyShownOnce()
    ensures PyStr(Obj([Member("a", Num(1)), Member("a", Num(2))])) == "{'a': 2}"
  {
    var ms := [Member("a", Num(1)), Member("a", Num(2))];
    assert Decoded(Obj(ms)) == Obj([Member("a", Num(2))]) by { DictOfRepeatedKey(); }
    ReprOfOneMember("a", Num(2));
    assert Repr(Num(2)) == "2";
  }

  /** The dict of `{"a": 1, "a": 2}` is `{"a": 2}`. */
  lemma DictOfRepeatedKey()
    ensures Dict(DecodedMembers([Member("a", Num(1)), Member("a", Num(2))])) == [Member("a", Num(2))]
  {
    var ms := [Member("a", Num(1)), Member("a", Num(2))];
    assert DecodedMembers(ms) == ms;
    assert ms[..1] == [Member("a", Num(1))];
    DictOfDistinct(ms[..1]);
    assert HasKey(ms[..1], "a");
  }

  /** `repr` of a one-member object. */
  lemma ReprOfOneMember(key: string, v: Json)
    ensures Repr(Obj([Member(key, v)])) == "{'" + key + "': " + Repr(v) + "}"
  {
    var ms := [Member(key, v)];
    var parts := seq(|ms|, i requires 0 <= i < |ms| => "'" + ms[i].key + "': " + Repr(ms[i].value));
    assert parts == ["'" + key + "': " + Repr(v)];
    assert CommaJoined(parts) == "'" + key + "': " + Repr(v);
  }
}

=== FILE: poller.dfy ===
/** The status poller: how the polling interval setting is normalised,
    whether the poller runs at all, and what one tick of it publishes. */
module Poller {
  import opened Wrappers
  import opened Settings
  import opened Effects

  /** The smallest interval, in seconds, a running poller uses. */
  const PollingIntervalMin: int := 60

  /** `int(os.getenv("SWITCHBOT_POLLING_INTERVAL_SEC", 0))`, given the parsed
      setting: `None` when `int()` raises, in which case 0 is used. An unset
      variable reads as `Some(0)`. */
  function IntervalSetting(raw: Option<int>): int
  {
    if raw.Some? then raw.value else 0
  }

  /** A positive interval below the minimum is raised to the minimum; every
      other value is kept. */
  function NormaliseInterval(v: int): (r: int)
    ensures 0 < v < PollingIntervalMin ==> r == PollingIntervalMin
    ensures v >= PollingIntervalMin ==> r == v
    ensures v <= 0 ==> r == v
  {
    if v > 0 && v < PollingIntervalMin then PollingIntervalMin else v
  }

  /** The poller thread is started only for a positive interval. */
  predicate PollerStarts(interval: int)
  {
    interval > 0
  }

  /** Whatever was configured, a poller that starts waits at least the
      minimum between ticks, and it starts exactly when the configured value
      was positive. */
  lemma StartedPollerRespectsMinimum(raw: Option<int>)
    ensures PollerStarts(NormaliseInterval(IntervalSetting(raw))) <==>
              raw.Some? && raw.value > 0
    ensures PollerStarts(NormaliseInterval(IntervalSetting(raw))) ==>
              NormaliseInterval(IntervalSetting(raw)) >= PollingIntervalMin
  {
  }

  /** Normalising an already normalised interval changes nothing. */
  lemma NormaliseIntervalIdempotent(v: int)
    ensures NormaliseInterval(NormaliseInterval(v)) == NormaliseInterval(v)
  {
  }

  /** The command topic of a device. */
  function CommandTopic(cfg: Config, deviceId: string): string
  {
    cfg.smartlockBase + deviceId + "/cmnd"
  }

  /** The `status` messages of one tick for the given devices, in order. */
  function StatusCommands(cfg: Config, deviceIds: seq<string>): (ps: seq<Publish>)
    ensures |ps| == |deviceIds|
    ensures forall i :: 0 <= i < |ps| ==>
              ps[i] == Publish(CommandTopic(cfg, deviceIds[i]), Raw("status"))
  {
    if |deviceIds| == 0 then []
    else [Publish(CommandTopic(cfg, deviceIds[0]), Raw("status"))] + StatusCommands(cfg, deviceIds[1..])
  }

  /** One tick of `poll_status`: one `status` message per allow-listed device,
      on that device's command topic, in allow-list order, and no vendor call
      of its own: the answers come back through `on_message`. */
  function PollTick(cfg: Config): (o: Outcome)
    ensures o.calls == []
    ensures |o.published| == |cfg.validDeviceIds|
    ensures forall i :: 0 <= i < |o.published| ==>
              o.published[i] == Publish(CommandTopic(cfg, cfg.validDeviceIds[i]), Raw("status"))
  {
    Outcome([], StatusCommands(cfg, cfg.validDeviceIds))
  }
}

=== FILE: router.dfy ===
/** `on_message`: what the bridge does with one message from the bus. A
    message on a smart-lock topic becomes at most one vendor call for the
    device named in its topic; a message on the generic topic becomes at most
    one vendor call described by its JSON payload. A 200 reply with a JSON body
    is republished; everything else, including every exception the handler
    raises, ends with nothing published. */
module Router {
  import opened Wrappers
  import opened JsonValue
  import opened Text
  import opened Settings
  import opened Effects
  import opened Topics

  /** The position of the device id among the topic's segments. */
  const DeviceIdSegment: nat := 3

  /** The one smart-lock command that reads instead of acting. */
  const StatusCommand: string := "status"

  /** An inbound payload as `msg.payload.decode('utf-8')` and, on the generic
      path, `json.loads` see it: `NotUtf8` when decoding raises; `parsed` is
      `None` when the text is not JSON. */
  datatype Payload = NotUtf8 | Utf8(text: string, parsed: Option<Json>)

  datatype Message = Message(topic: string, payload: Payload)

  /** Where a message is headed before the vendor answers: dropped, or one
      call whose JSON reply goes to `replyTopic`. */
  datatype Route = Drop | Dispatch(request: Request, replyTopic: string)

  datatype TopicKind = SmartlockTopic | GenericTopic | UnknownTopic

  /** `is_smartlock_topic` is tested before `is_generic_topic`; both are plain
      prefix tests. */
  function Classify(cfg: Config, topic: string): (k: TopicKind)
    ensures k == SmartlockTopic <==> cfg.smartlockBase <= topic
    ensures k == GenericTopic <==> !(cfg.smartlockBase <= topic) && cfg.genericBase <= topic
    ensures k == UnknownTopic <==> !(cfg.smartlockBase <= topic) && !(cfg.genericBase <= topic)
  {
    if cfg.smartlockBase <= topic then SmartlockTopic
    else if cfg.genericBase <= topic then GenericTopic
    else UnknownTopic
  }

  function StatusUrl(cfg: Config, id: string): string
  {
    cfg.apiBaseUrl + "devices/" + id + "/status"
  }

  function CommandsUrl(cfg: Config, id: string): string
  {
    cfg.apiBaseUrl + "devices/" + id + "/commands"
  }

  /** `{"command": command, "commandType": "command"}`. */
  function CommandBody(command: string): Json
  {
    Obj([Member("command", Str(command)), Member("commandType", Str("command"))])
  }

  /** The device id the smart-lock path checks, when the topic has one. */
  function TopicDeviceId(topic: string): Option<string>
  {
    GetIdFromTopic(topic, DeviceIdSegment)
  }

  /** The command the smart-lock path checks: the payload lower-cased and
      NOT trimmed. */
  function CommandOf(payload: Payload): Option<string>
  {
    if payload.Utf8? then Some(Lower(payload.text)) else None
  }

  /** The smart-lock decision for a device id and a command read from a
      message: device id first, then the command, then GET for `status` and
      POST for anything else, with the reply going to `replyTopic`. */
  function RouteCommand(cfg: Config, id: Option<string>, command: Option<string>,
                        replyTopic: string): (r: Route)
  {
    if id.None? || !IsValidDeviceId(cfg, id.value) then Drop
    else if command.None? || !IsValidCommand(cfg, command.value) then Drop
    else if command.value == StatusCommand then
      Dispatch(Get(StatusUrl(cfg, id.value)), replyTopic)
    else
      Dispatch(Post(CommandsUrl(cfg, id.value), CommandBody(command.value)), replyTopic)
  }

  /** The smart-lock path: segment 3 of the topic is the device, the
      lower-cased payload the command, and the reply goes to the topic's
      `response` sibling. */
  function RouteSmartlock(cfg: Config, topic: string, payload: Payload): (r: Route)
  {
    RouteCommand(cfg, TopicDeviceId(topic), CommandOf(payload), ResponseTopic(topic))
  }

  /** The generic path: the payload must decode to a JSON object; a truthy
      `service` with `method` "get" or "post" makes the call. Anything that
      is not an object makes `data.get` raise, which is swallowed. */
  function RouteGeneric(cfg: Config, payload: Payload): (r: Route)
  {
    if payload.NotUtf8? || payload.parsed.None? || !payload.parsed.value.Obj? then Drop
    else
      var data := payload.parsed.value.members;
      var verb := Lookup(data, "method");
      var service := Lookup(data, "service");
      var reply := cfg.genericBase + "response";
      if Truthy(service) && verb == Str("get") then
        Dispatch(Get(cfg.apiBaseUrl + PyStr(service)), reply)
      else if Truthy(service) && verb == Str("post") then
        Dispatch(Post(cfg.apiBaseUrl + PyStr(service), Decoded(Lookup(data, "payload"))), reply)
      else Drop
  }

  function RouteMessage(cfg: Config, msg: Message): (r: Route)
  {
    match Classify(cfg, msg.topic)
    case SmartlockTopic => RouteSmartlock(cfg, msg.topic, msg.payload)
    case GenericTopic => RouteGeneric(cfg, msg.payload)
    case UnknownTopic => Drop
  }

  /** The JSON document to republish, if any. Only a 200 reply whose body is
      JSON yields one, and it is the value `res.json()` built, which
      `json.dumps` writes out: `False.status_code` raises on a transport
      failure, and `res.json()` raises on a body that is not JSON; both
      exceptions are swallowed. */
  function Republished(reply: Reply): (doc: Option<Json>)
    ensures doc.Some? <==> reply.Response? && reply.status == HttpOk && reply.body.Some?
    ensures doc.Some? ==> doc.value == Decoded(reply.body.value)
  {
    match reply
    case TransportFailure => None
    case Response(status, body) =>
      if status == HttpOk && body.Some? then Some(Decoded(body.value)) else None
  }

  /** One route carried out against the vendor's reply. */
  function Deliver(route: Route, reply: Reply): Outcome
  {
    match route
    case Drop => NoEffect
    case Dispatch(request, replyTopic) =>
      var doc := Republished(reply);
      Outcome([request], if doc.Some? then [Publish(replyTopic, JsonDoc(doc.value))] else [])
  }

  /** `on_message`. At most one vendor call and at most one publish, and a
      publish only after a call that was answered 200 with a JSON body, whose
      body is what gets published. On a smart-lock topic a call happens only
      when segment 3 is an allow-listed device and the lower-cased payload an
      allow-listed command, and the reply goes to the inbound topic with its
      last four characters dropped and `response` appended; on the generic
      topic it goes to the generic response topic; any other topic is
      ignored. */
  function OnMessage(cfg: Config, msg: Message, reply: Reply): (o: Outcome)
    ensures |o.calls| <= 1 && |o.published| <= |o.calls|
    ensures |o.published| == 1 ==>
              reply.Response? && reply.status == HttpOk && reply.body.Some? &&
              o.published[0].body == JsonDoc(Decoded(reply.body.value))
    ensures |o.calls| == 1 && reply.Response? && reply.status == HttpOk && reply.body.Some? ==>
              |o.published| == 1
    ensures cfg.smartlockBase <= msg.topic && |o.calls| == 1 ==>
              && TopicDeviceId(msg.topic).Some?
              && IsValidDeviceId(cfg, TopicDeviceId(msg.topic).value)
              && CommandOf(msg.payload).Some?
              && IsValidCommand(cfg, CommandOf(msg.payload).value)
    ensures cfg.smartlockBase <= msg.topic && |o.published| == 1 ==>
              o.published[0].topic == ResponseTopic(msg.topic)
    ensures !(cfg.smartlockBase <= msg.topic) && |o.published| == 1 ==>
              o.published[0].topic == cfg.genericBase + "response"
    ensures !(cfg.smartlockBase <= msg.topic) && !(cfg.genericBase <= msg.topic) ==>
              o == NoEffect
  {
    Deliver(RouteMessage(cfg, msg), reply)
  }
}

=== FILE: router_properties.dfy ===
/** Properties of `on_message` that relate its outcome to the message and
    the configuration, or relate two messages to each other. */
module RouterProperties {
  import opened Wrappers
  import opened JsonValue
  import opened Text
  import opened Settings
  import opened Effects
  import opened Topics
  import opened Router

  /** What a dispatched call publishes for a given reply. */
  function ReplyPublishes(replyTopic: string, reply: Reply): seq<Publish>
  {
    if reply.Response? && reply.status == HttpOk && reply.body.Some?
    then [Publish(replyTopic, JsonDoc(Decoded(reply.body.value)))]
    else []
  }

  /** A dispatched route makes its one call and publishes what the reply
      rule gives. */
  lemma DeliverDispatch(request: Request, replyTopic: string, reply: Reply)
    ensures Deliver(Dispatch(request, replyTopic), reply)
            == Outcome([request], ReplyPublishes(replyTopic, reply))
  {
  }

  /** A message on a smart-lock topic takes the smart-lock path. */
  lemma SmartlockRouted(cfg: Config, msg: Message)
    requires cfg.smartlockBase <= msg.topic
    ensures RouteMessage(cfg, msg) == RouteSmartlock(cfg, msg.topic, msg.payload)
  {
  }

  /** The smart-lock path reads the device from the topic and the command
      from the payload, and nothing else. */
  lemma SmartlockDecision(cfg: Config, topic: string, payload: Payload)
    ensures RouteSmartlock(cfg, topic, payload)
            == RouteCommand(cfg, TopicDeviceId(topic), CommandOf(payload), ResponseTopic(topic))
  {
  }

  /** An allow-listed device and the allow-listed `status` command make a GET
      of the device's status. */
  lemma StatusDecision(cfg: Config, id: Option<string>, command: Option<string>, replyTopic: string)
    requires id.Some? && IsValidDeviceId(cfg, id.value)
    requires command == Some(StatusCommand) && IsValidCommand(cfg, StatusCommand)
    ensures RouteCommand(cfg, id, command, replyTopic)
            == Dispatch(Get(StatusUrl(cfg, id.value)), replyTopic)
  {
  }

  /** An allow-listed device and any other allow-listed command make a POST
      of that command. */
  lemma PostDecision(cfg: Config, id: Option<string>, command: Option<string>, replyTopic: string)
    requires id.Some? && IsValidDeviceId(cfg, id.value)
    requires command.Some? && IsValidCommand(cfg, command.value) && command.value != StatusCommand
    ensures RouteCommand(cfg, id, command, replyTopic)
            == Dispatch(Post(CommandsUrl(cfg, id.value), CommandBody(command.value)), replyTopic)
  {
  }

  /** A valid `status` command on a smart-lock topic is exactly one GET of the
      device's status resource; a 200 JSON reply is published once, to the
      inbound topic with its last four characters replaced by `response`. */
  lemma SmartlockStatusIsOneGet(cfg: Config, topic: string, text: string, parsed: Option<Json>,
                                reply: Reply)
    requires cfg.smartlockBase <= topic
    requires TopicDeviceId(topic).Some? && IsValidDeviceId(cfg, TopicDeviceId(topic).value)
    requires Lower(text) == StatusCommand && IsValidCommand(cfg, StatusCommand)
    ensures var o := OnMessage(cfg, Message(topic, Utf8(text, parsed)), reply);
            && o.calls == [Get(StatusUrl(cfg, TopicDeviceId(topic).value))]
            && o.published == ReplyPublishes(ResponseTopic(topic), reply)
  {
    var id := TopicDeviceId(topic).value;
    var request := Get(StatusUrl(cfg, id));
    SmartlockRouted(cfg, Message(topic, Utf8(text, parsed)));
    SmartlockDecision(cfg, topic, Utf8(text, parsed));
    StatusDecision(cfg, TopicDeviceId(topic), CommandOf(Utf8(text, parsed)), ResponseTopic(topic));
    DeliverDispatch(request, ResponseTopic(topic), reply);
  }

  /** Any other valid command is exactly one POST to the device's commands
      resource carrying `{"command": <command>, "commandType": "command"}`. */
  lemma SmartlockCommandIsOnePost(cfg: Config, topic: string, text: string, parsed: Option<Json>,
                                  reply: Reply)
    requires cfg.smartlockBase <= topic
    requires TopicDeviceId(topic).Some? && IsValidDeviceId(cfg, TopicDeviceId(topic).value)
    requires Lower(text) != StatusCommand && IsValidCommand(cfg, Lower(text))
    ensures var o := OnMessage(cfg, Message(topic, Utf8(text, parsed)), reply);
            && o.calls == [Post(CommandsUrl(cfg, TopicDeviceId(topic).value), CommandBody(Lower(text)))]
            && o.published == ReplyPublishes(ResponseTopic(topic), reply)
  {
    var id := TopicDeviceId(topic).value;
    var request := Post(CommandsUrl(cfg, id), CommandBody(Lower(text)));
    SmartlockRouted(cfg, Message(topic, Utf8(text, parsed)));
    SmartlockDecision(cfg, topic, Utf8(text, parsed));
    PostDecision(cfg, TopicDeviceId(topic), CommandOf(Utf8(text, parsed)), ResponseTopic(topic));
    DeliverDispatch(request, ResponseTopic(topic), reply);
  }

  /** The device id is checked before the payload is even decoded: with an
      unknown device the payload makes no difference and nothing happens. */
  lemma DeviceCheckedFirst(cfg: Config, topic: string, p1: Payload, p2: Payload, reply: Reply)
    requires cfg.smartlockBase <= topic
    requires TopicDeviceId(topic).None? || !IsValidDeviceId(cfg, TopicDeviceId(topic).value)
    ensures OnMessage(cfg, Message(topic, p1), reply) == NoEffect
    ensures OnMessage(cfg, Message(topic, p1), reply) == OnMessage(cfg, Message(topic, p2), reply)
  {
  }

  /** Whatever the device, a command outside the allow-list makes no call. */
  lemma UnknownCommandIsDropped(cfg: Config, topic: string, p: Payload, reply: Reply)
    requires cfg.smartlockBase <= topic
    requires CommandOf(p).None? || !IsValidCommand(cfg, CommandOf(p).value)
    ensures OnMessage(cfg, Message(topic, p), reply) == NoEffect
  {
  }

  /** Smart-lock commands are case-insensitive: payloads that lower-case to
      the same text are handled identically. */
  lemma CommandCaseInsensitive(cfg: Config, topic: string, t1: string, t2: string,
                               j1: Option<Json>, j2: Option<Json>, reply: Reply)
    requires cfg.smartlockBase <= topic
    requires Lower(t1) == Lower(t2)
    ensures OnMessage(cfg, Message(topic, Utf8(t1, j1)), reply) ==
            OnMessage(cfg, Message(topic, Utf8(t2, j2)), reply)
  {
    SmartlockRouted(cfg, Message(topic, Utf8(t1, j1)));
    SmartlockRouted(cfg, Message(topic, Utf8(t2, j2)));
    assert CommandOf(Utf8(t1, j1)) == CommandOf(Utf8(t2, j2));
  }

  /** The payload is not trimmed: `status` followed by a space is not the
      status command, and unless the allow-list holds a command ending in a
      space it is dropped. */
  lemma PayloadNotTrimmed(cfg: Config, topic: string, parsed: Option<Json>, reply: Reply)
    requires cfg.smartlockBase <= topic
    requires forall i :: 0 <= i < |cfg.validCommands| ==>
               cfg.validCommands[i] == "" || cfg.validCommands[i][|cfg.validCommands[i]| - 1] != ' '
    ensures OnMessage(cfg, Message(topic, Utf8("status ", parsed)), reply) == NoEffect
  {
    var command := Lower("status ");
    assert command[6] == ' ';
    assert !IsValidCommand(cfg, command);
  }

  /** A message on the generic topic, and not on a smart-lock topic, takes
      the generic path. */
  lemma GenericRouted(cfg: Config, msg: Message)
    requires !(cfg.smartlockBase <= msg.topic) && cfg.genericBase <= msg.topic
    ensures RouteMessage(cfg, msg) == RouteGeneric(cfg, msg.payload)
  {
  }

  /** The generic path for a JSON object with a truthy `service` and
      `method` "get". */
  lemma GenericGetDecision(cfg: Config, text: string, data: seq<Member>)
    requires Truthy(Lookup(data, "service")) && Lookup(data, "method") == Str("get")
    ensures RouteGeneric(cfg, Utf8(text, Some(Obj(data))))
            == Dispatch(Get(cfg.apiBaseUrl + PyStr(Lookup(data, "service"))), cfg.genericBase + "response")
  {
  }

  /** The generic path for a JSON object with a truthy `service` and
      `method` "post". */
  lemma GenericPostDecision(cfg: Config, text: string, data: seq<Member>)
    requires Truthy(Lookup(data, "service")) && Lookup(data, "method") == Str("post")
    ensures RouteGeneric(cfg, Utf8(text, Some(Obj(data))))
            == Dispatch(Post(cfg.apiBaseUrl + PyStr(Lookup(data, "service")), Decoded(Lookup(data, "payload"))),
                        cfg.genericBase + "response")
  {
  }

  /** Generic `get`: one GET of the API base URL followed by the `service`
      text; a 200 JSON reply goes to the generic response topic. */
  lemma GenericGetIsOneGet(cfg: Config, topic: string, text: string, data: seq<Member>,
                           reply: Reply)
    requires !(cfg.smartlockBase <= topic) && cfg.genericBase <= topic
    requires Truthy(Lookup(data, "service")) && Lookup(data, "method") == Str("get")
    ensures var o := OnMessage(cfg, Message(topic, Utf8(text, Some(Obj(data)))), reply);
            && o.calls == [Get(cfg.apiBaseUrl + PyStr(Lookup(data, "service")))]
            && o.published == ReplyPublishes(cfg.genericBase + "response", reply)
  {
    GenericRouted(cfg, Message(topic, Utf8(text, Some(Obj(data)))));
    GenericGetDecision(cfg, text, data);
    DeliverDispatch(Get(cfg.apiBaseUrl + PyStr(Lookup(data, "service"))), cfg.genericBase + "response", reply);
  }

  /** Generic `post`: one POST to the API base URL followed by the `service`
      text, whose body is the payload's `payload` field as `json.loads` built
      it. */
  lemma GenericPostIsOnePost(cfg: Config, topic: string, text: string, data: seq<Member>,
                             reply: Reply)
    requires !(cfg.smartlockBase <= topic) && cfg.genericBase <= topic
    requires Truthy(Lookup(data, "service")) && Lookup(data, "method") == Str("post")
    ensures var o := OnMessage(cfg, Message(topic, Utf8(text, Some(Obj(data)))), reply);
            && o.calls == [Post(cfg.apiBaseUrl + PyStr(Lookup(data, "service")), Decoded(Lookup(data, "payload")))]
            && o.published == ReplyPublishes(cfg.genericBase + "response", reply)
  {
    GenericRouted(cfg, Message(topic, Utf8(text, Some(Obj(data)))));
    GenericPostDecision(cfg, text, data);
    DeliverDispatch(Post(cfg.apiBaseUrl + PyStr(Lookup(data, "service")), Decoded(Lookup(data, "payload"))),
                    cfg.genericBase + "response", reply);
  }

  /** Any other generic payload, including one that is not a JSON object at
      all, makes no call and publishes nothing. */
  lemma GenericOtherShapeIsDropped(cfg: Config, topic: string, p: Payload, reply: Reply)
    requires !(cfg.smartlockBase <= topic) && cfg.genericBase <= topic
    requires p.Utf8? && p.parsed.Some? && p.parsed.value.Obj? ==>
               var data := p.parsed.value.members;
               !Truthy(Lookup(data, "service")) ||
               (Lookup(data, "method") != Str("get") && Lookup(data, "method") != Str("post"))
    ensures OnMessage(cfg, Message(topic, p), reply) == NoEffect
  {
  }

  /** An allow-listed command can only ever be matched when it has no ASCII
      capital: the payload is lower-cased before the allow-list is consulted,
      so a command written with a capital is dead configuration. The converse
      is a fact about the ASCII-only lower-casing modelled here. */
  lemma ReachableCommand(command: string)
    ensures (exists text :: Lower(text) == command) <==>
            forall i :: 0 <= i < |command| ==> !('A' <= command[i] <= 'Z')
  {
    forall text | Lower(text) == command
      ensures forall i :: 0 <= i < |command| ==> !('A' <= command[i] <= 'Z')
    {
    }
    if forall i :: 0 <= i < |command| ==> !('A' <= command[i] <= 'Z') {
      assert Lower(command) == command;
    }
  }

  /** An allow-listed device can only ever be matched on the smart-lock path
      when its id has no `/`: segment 3 of a topic never contains one, and
      every `/`-free id is segment 3 of some topic. */
  lemma ReachableDeviceId(id: string)
    ensures (exists topic :: TopicDeviceId(topic) == Some(id)) <==> Separator !in id
  {
    if Separator !in id {
      var segs := ["a", "b", id, "cmnd"];
      IdOfJoinedTopic(segs, DeviceIdSegment);
      assert TopicDeviceId(Join(segs)) == Some(id);
    }
  }
}

=== FILE: settings.dfy ===
/** The bridge's configuration, read once from the environment at start-up
    and never changed afterwards, and the allow-list tests built on it. */
module Settings {
  import opened JsonValue

  /** Topic bases, vendor API base URL, the webhook device type and the two
      allow-lists. */
  datatype Config = Config(
    smartlockBase: string,
    genericBase: string,
    apiBaseUrl: string,
    smartlockDeviceType: string,
    validDeviceIds: seq<string>,
    validCommands: seq<string>)

  /** The values used when the environment leaves a setting unset. */
  const DefaultConfig: Config := Config(
    "smarthome/smartlock/",
    "switchbot/api/generic/",
    "https://api.switch-bot.com/v1.1/",
    "WoLockPro",
    [],
    [])

  /** `deviceid in SWITCHBOT_VALID_DEVICE_ID`. */
  predicate IsValidDeviceId(cfg: Config, id: string)
  {
    id in cfg.validDeviceIds
  }

  /** `command in SWITCHBOT_SMARTLOCK_VALID_COMMAND`. */
  predicate IsValidCommand(cfg: Config, command: string)
  {
    command in cfg.validCommands
  }

  /** `type == SWITCHBOT_DEVICE_TYPE_SMARTLOCKPRO`: the configured type is a
      string, so only a JSON string with the same text compares equal. */
  predicate IsSmartlockWebhook(cfg: Config, deviceType: Json)
  {
    deviceType == Str(cfg.smartlockDeviceType)
  }

  /** With the allow-list settings unset both lists are empty, so no device
      and no command is admitted; the webhook device type is the string
      `WoLockPro`, with that exact spelling. */
  lemma DefaultConfigAdmitsNothing(id: string, command: string, deviceType: Json)
    ensures !IsValidDeviceId(DefaultConfig, id)
    ensures !IsValidCommand(DefaultConfig, command)
    ensures IsSmartlockWebhook(DefaultConfig, deviceType) <==> deviceType == Str("WoLockPro")
  {
  }
}

=== FILE: text.dfy ===
/** The Python string operations the bridge relies on: `str.split('/')`,
    its inverse `'/'.join`, and `str.lower()`. */
module Text {

  /** The MQTT topic level separator. */
  const Separator: char := '/'

  /** The position of the first separator in a text that has one. */
  function FirstSeparator(s: string): (i: nat)
    requires Separator in s
    ensures i < |s| && s[i] == Separator && Separator !in s[..i]
  {
    if s[0] == Separator then 0
    else
      assert Separator in s[1..] by { assert s == [s[0]] + s[1..]; }
      var j := FirstSeparator(s[1..]);
      assert s[..j + 1] == [s[0]] + s[1..][..j];
      j + 1
  }

  /** Any separator with none before it is the first one. */
  lemma FirstSeparatorIsUnique(s: string, k: nat)
    requires k < |s| && s[k] == Separator && Separator !in s[..k]
    ensures FirstSeparator(s) == k
  {
    var i := FirstSeparator(s);
    forall j | 0 <= j < k ensures s[j] != Separator {
      assert s[..k][j] == s[j];
    }
    forall j | 0 <= j < i ensures s[j] != Separator {
      assert s[..i][j] == s[j];
    }
  }

  /** `s.split('/')`: the pieces between separators, in order. There is always
      at least one piece, and no piece contains a separator. */
  function Split(s: string): (segs: seq<string>)
    ensures |segs| >= 1
    ensures forall i :: 0 <= i < |segs| ==> Separator !in segs[i]
    decreases |s|
  {
    if Separator !in s then [s]
    else
      var i := FirstSeparator(s);
      [s[..i]] + Split(s[i + 1..])
  }

  /** A split has one more piece than the text has separators. */
  lemma {:induction false} SegmentCount(s: string)
    ensures |Split(s)| == multiset(s)[Separator] + 1
    decreases |s|
  {
    if Separator in s {
      var i := FirstSeparator(s);
      SegmentCount(s[i + 1..]);
      assert s == s[..i] + [Separator] + s[i + 1..];
      assert multiset(s) == multiset(s[..i]) + multiset([Separator]) + multiset(s[i + 1..]);
    }
  }

  /** `'/'.join(segs)`. */
  function Join(segs: seq<string>): string
  {
    if |segs| == 0 then ""
    else if |segs| == 1 then segs[0]
    else segs[0] + [Separator] + Join(segs[1..])
  }

  /** Joining a head onto at least one further piece puts a separator between. */
  lemma JoinCons(head: string, tail: seq<string>)
    requires |tail| >= 1
    ensures Join([head] + tail) == head + [Separator] + Join(tail)
  {
    assert ([head] + tail)[1..] == tail;
  }

  /** Joining the pieces of a split gives back the original text. */
  lemma {:induction false} JoinSplit(s: string)
    ensures Join(Split(s)) == s
    decreases |s|
  {
    if Separator in s {
      var i := FirstSeparator(s);
      JoinSplit(s[i + 1..]);
      JoinCons(s[..i], Split(s[i + 1..]));
      assert s == s[..i] + [Separator] + s[i + 1..];
    }
  }

  /** A leading piece followed by a separator is split off unchanged. */
  lemma SplitLeading(a: string, rest: string)
    requires Separator !in a
    ensures Split(a + [Separator] + rest) == [a] + Split(rest)
  {
    var s := a + [Separator] + rest;
    assert s[..|a|] == a;
    assert s[|a|] == Separator;
    FirstSeparatorIsUnique(s, |a|);
    assert s[|a| + 1..] == rest;
  }

  /** Splitting a join of separator-free pieces gives back the pieces. */
  lemma {:induction false} SplitJoin(segs: seq<string>)
    requires |segs| >= 1
    requires forall i :: 0 <= i < |segs| ==> Separator !in segs[i]
    ensures Split(Join(segs)) == segs
    decreases |segs|
  {
    if |segs| > 1 {
      SplitLeading(segs[0], Join(segs[1..]));
      SplitJoin(segs[1..]);
      assert segs == [segs[0]] + segs[1..];
    }
  }

  /** `c.lower()` for one character. Only ASCII letters are mapped. */
  function LowerChar(c: char): char
  {
    if 'A' <= c <= 'Z' then (c as int + 32) as char else c
  }

  /** `s.lower()`: every ASCII capital becomes its small letter, nothing else
      changes and the length is kept. */
  function Lower(s: string): (r: string)
    ensures |r| == |s|
    ensures forall i :: 0 <= i < |s| ==> r[i] == LowerChar(s[i])
    ensures forall i :: 0 <= i < |s| ==> !('A' <= r[i] <= 'Z')
  {
    if |s| == 0 then "" else [LowerChar(s[0])] + Lower(s[1..])
  }

  /** Lower-casing twice is lower-casing once. */
  lemma LowerIdempotent(s: string)
    ensures Lower(Lower(s)) == Lower(s)
  {
    var once := Lower(s);
    var twice := Lower(once);
    assert forall i :: 0 <= i < |once| ==> twice[i] == once[i];
  }
}

=== FILE: topics.dfy ===
/** Reading device ids out of topics and deriving reply topics. */
module Topics {
  import opened Wrappers
  import opened Text

  /** `get_id_from_topic(topic, idx)`: the idx-th `/`-separated segment when
      the topic has at least idx segments, `None` otherwise. An `idx` of 0
      reads Python's `segments[-1]`, the last segment. */
  function GetIdFromTopic(topic: string, idx: nat): (r: Option<string>)
    ensures r.Some? <==> idx <= multiset(topic)[Separator] + 1
    ensures r.Some? ==> Separator !in r.value
  {
    SegmentCount(topic);
    var segs := Split(topic);
    if |segs| >= idx then Some(if idx == 0 then segs[|segs| - 1] else segs[idx - 1])
    else None
  }

  /** For a topic built from separator-free segments, `GetIdFromTopic` picks
      out exactly the segment asked for, and `None` past the last one. */
  lemma IdOfJoinedTopic(segs: seq<string>, idx: nat)
    requires |segs| >= 1
    requires forall i :: 0 <= i < |segs| ==> Separator !in segs[i]
    requires idx >= 1
    ensures idx <= |segs| ==> GetIdFromTopic(Join(segs), idx) == Some(segs[idx - 1])
    ensures idx > |segs| ==> GetIdFromTopic(Join(segs), idx) == None
  {
    SplitJoin(segs);
  }

  /** `topic[0:-4] + "response"`: the topic with its last four characters
      replaced by `response` (Python's slice is empty when the topic is
      shorter than four characters). */
  function ResponseTopic(topic: string): (r: string)
    ensures |r| >= 8 && r[|r| - 8..] == "response"
    ensures |topic| >= 4 ==> |r| == |topic| + 4 && r[..|topic| - 4] == topic[..|topic| - 4]
    ensures |topic| < 4 ==> r == "response"
  {
    (if |topic| >= 4 then topic[..|topic| - 4] else "") + "response"
  }

  /** The reply topic of a `.../cmnd` topic is the same topic ending in
      `/response`. */
  lemma ResponseTopicOfCommandTopic(prefix: string)
    ensures ResponseTopic(prefix + "/cmnd") == prefix + "/response"
  {
    var t := prefix + "/cmnd";
    assert t[..|t| - 4] == prefix + "/";
  }
}

=== FILE: webhook.dfy ===
/** `receive_webhook`: the HTTP endpoint the vendor pushes events to. A chain
    of checks ends in a 400 reply, in a 500 when `.get` is called on a value
    that is not an object, or in exactly one publish of the decoded event on
    the device's event topic. */
module Webhook {
  import opened JsonValue
  import opened Settings
  import opened Effects

  const ChangeReport: string := "changeReport"
  const InvalidPayload: string := "Invalid payload"

  /** The endpoint's answer. `Accepted` is 200 `{"status": "ok"}` after the
      publish; `Rejected` is 400 `{"error": error}`; `ServerError` is the 500
      Flask sends when `.get` is called on a JSON value that is not an object. */
  datatype WebhookReply = Accepted(publish: Publish) | Rejected(error: string) | ServerError

  function StatusCode(r: WebhookReply): int
  {
    match r
    case Accepted(_) => 200
    case Rejected(_) => 400
    case ServerError => 500
  }

  /** The event topic of a device. */
  function EventTopic(cfg: Config, deviceId: string): string
  {
    cfg.smartlockBase + deviceId + "/event"
  }

  /** An event the bridge forwards, stated as one condition: a JSON object
      whose `eventType` is `changeReport` and whose `context` is a non-empty
      object naming the configured device type and a non-empty, allow-listed
      device MAC. */
  predicate IsForwardedEvent(cfg: Config, data: Json)
  {
    && data.Obj?
    && Lookup(data.members, "eventType") == Str(ChangeReport)
    && var context := Lookup(data.members, "context");
    && context.Obj? && |context.members| > 0
    && Lookup(context.members, "deviceType") == Str(cfg.smartlockDeviceType)
    && var mac := Lookup(context.members, "deviceMac");
    && mac.Str? && mac.s != "" && IsValidDeviceId(cfg, mac.s)
  }

  /** The device MAC of a forwarded event. */
  function EventDeviceId(cfg: Config, data: Json): string
    requires IsForwardedEvent(cfg, data)
  {
    Lookup(Lookup(data.members, "context").members, "deviceMac").s
  }

  /** `receive_webhook`, given the JSON document the vendor sent. `Lookup`
      reads it as the dict `request.get_json()` built would answer, and the
      publish carries that dict, written out again. */
  function ReceiveWebhook(cfg: Config, data: Json): (r: WebhookReply)
    ensures StatusCode(r) == 200 <==> IsForwardedEvent(cfg, data)
    ensures r.Accepted? ==> r.publish.topic == EventTopic(cfg, EventDeviceId(cfg, data))
    ensures r.Accepted? ==> r.publish.body == JsonDoc(Decoded(data))
    ensures r.ServerError? <==>
              || (Truthy(data) && !data.Obj?)
              || (&& data.Obj?
                  && Lookup(data.members, "eventType") == Str(ChangeReport)
                  && Truthy(Lookup(data.members, "context"))
                  && !Lookup(data.members, "context").Obj?)
    ensures !Truthy(data) || (data.Obj? && Lookup(data.members, "eventType") != Str(ChangeReport)) ==>
              r == Rejected(InvalidPayload)
    ensures (&& data.Obj?
             && Lookup(data.members, "eventType") == Str(ChangeReport)
             && Lookup(data.members, "context").Obj?
             && |Lookup(data.members, "context").members| > 0
             && Lookup(Lookup(data.members, "context").members, "deviceType") == Str(cfg.smartlockDeviceType))
            ==>
            var mac := Lookup(Lookup(data.members, "context").members, "deviceMac");
            && (!Truthy(mac) ==> r == Rejected(InvalidPayload))
            && (Truthy(mac) && !(mac.Str? && IsValidDeviceId(cfg, mac.s)) ==>
                  r == Rejected("Invalid deviceid " + PyStr(mac)))
  {
    if !Truthy(data) then Rejected(InvalidPayload)
    else if !data.Obj? then ServerError
    else if Lookup(data.members, "eventType") != Str(ChangeReport) then Rejected(InvalidPayload)
    else
      var context := Lookup(data.members, "context");
      if !Truthy(context) then Rejected(InvalidPayload)
      else if !context.Obj? then ServerError
      else
        var deviceType := Lookup(context.members, "deviceType");
        if !IsSmartlockWebhook(cfg, deviceType) then Rejected(InvalidPayload)
        else
          var deviceId := Lookup(context.members, "deviceMac");
          if !Truthy(deviceId) then Rejected(InvalidPayload)
          else if !(deviceId.Str? && IsValidDeviceId(cfg, deviceId.s)) then
            Rejected("Invalid deviceid " + PyStr(deviceId))
          else
            Accepted(Publish(EventTopic(cfg, deviceId.s), JsonDoc(Decoded(data))))
  }

  /** A change report from any other device type is refused with "Invalid
      payload", however the rest of its context reads: the type test is
      plain equality with the configured type string. */
  lemma OtherDeviceTypeRejected(cfg: Config, data: Json)
    requires data.Obj? && Lookup(data.members, "eventType") == Str(ChangeReport)
    requires Lookup(data.members, "context").Obj?
    requires |Lookup(data.members, "context").members| > 0
    requires Lookup(Lookup(data.members, "context").members, "deviceType") != Str(cfg.smartlockDeviceType)
    ensures ReceiveWebhook(cfg, data) == Rejected(InvalidPayload)
    ensures !IsForwardedEvent(cfg, data)
  {
  }
}

=== FILE: wrappers.dfy ===
/** The optional value shared by every module of the bridge: `None` stands
    for Python's `None`. */
module Wrappers {

  datatype Option<+T> = None | Some(value: T)
}
